=== FILE: README.md ===
# Partition-ring cursor of the IP-camera producer

The producer takes a snapshot from a network camera on every interval tick. It
stores the image in an object-store bucket and announces the image on a message
topic. The images are meant to be kept in a ring of `LIST_PARTITIONS`
partitions of `LIST_PARTITION_SIZE` images each, so that storage stays
bounded. The code never deletes an object, though: every capture whose fetch
succeeds stores a new object under a new timestamp key, so storage is not in
fact bounded. A
process-wide cursor `{head, tail, size}` tracks the ring: `head` is the
partition being written, `tail` the partition the ring would evict next, and
`size` the number of captures completed into `head`.

This project models that cursor and everything that moves it:

- `JsNumber`: JavaScript's `%`, a truncated remainder that keeps the sign of the
  dividend, and the decimal text that a template literal gives an integer.
- `PartitionRing`: the configuration, the cursor, startup initialisation
  (`head = (tail - 1) % N`, `tail = manifest.tail`) and the rotation/eviction
  rule that opens every tick. It also holds the ring invariant
  `0 <= head, tail < N`, `tail == (head + 1) mod N`, `0 <= size <= capacity`.
- `ObjectKeys`: the key `prefix + delim + "PARTITION-" + head + delim + timestamp`.
  `PartitionOf` is an independent parser that reads the partition index back out
  of a key.
- `CapturePipeline`: one tick, as a pure function of the cursor, an abstract I/O
  `Outcome` (`Ok | FailFetch | FailStore | FailPublish`) and the timestamp. Its
  effects are the collaborator calls it attempts, in order. The file also holds
  the tick as the source is written, where line 58 throws.
- `Startup`: `ensureBucket`'s branches over the replies of the object-store calls,
  and `main`'s initialisation from what `ensureBucket` returns, both as written
  and corrected.
- `Schedule`: runs of strictly serial ticks. It shows that the invariant holds
  across whole runs, gives the position of the cursor after `k` successful
  ticks, and shows that the ring goes all the way round after
  `partitions * capacity` captures.

Three facts about the code shape the model. `size` grows only after fetch,
store and publish have all succeeded (`index.js:73`), so a failed capture uses
up no capacity. The head starts at `(manifest.tail - 1) % N` and the tail at
`manifest.tail` (`index.js:47-49`). Keys name the partition as an unpadded
`PARTITION-<head>` (`index.js:64`). The code never deletes a partition and
never rewrites the manifest, so neither is modelled.

## Model

| member | source | states |
|---|---|---|
| JsNumber.Rem | ip-camera-producer/src/index.js:47 | JavaScript `%`: the result is strictly inside `(-n, n)`, takes the sign of the dividend and differs from it by a multiple of `n` |
| JsNumber.RemUnique | ip-camera-producer/src/index.js:47 | those three properties determine the truncated remainder uniquely, so `Rem`'s contract fully describes JavaScript's `%` |
| JsNumber.RemOfNatIsMod | ip-camera-producer/src/index.js:57 | on a non-negative dividend JavaScript's `%` is the mathematical `mod`, as the ring's arithmetic needs |
| JsNumber.RemOfMinusOne | ip-camera-producer/src/index.js:47 | `(0 - 1) % N` is `-1` for every `N >= 2`, not `N - 1` |
| JsNumber.Decimal | ip-camera-producer/src/index.js:64 | the text a template literal gives a non-negative head is a non-empty run of digits with no leading zero |
| JsNumber.DecimalRoundTrip | ip-camera-producer/src/index.js:64 | reading that text as a number gives back the head |
| JsNumber.ToString | ip-camera-producer/src/index.js:64 | the head's text is non-empty, starts with `-` exactly for a negative head, and the digits after any sign read back as the head's magnitude, with no leading zero |
| JsNumber.ToStringInjective | ip-camera-producer/src/index.js:64 | distinct integers, negative ones included, are printed differently |
| PartitionRing.Init | ip-camera-producer/src/index.js:47-49 | startup sets the tail to the manifest's tail and `size` to 0 and the head to JavaScript's `(tail - 1) % N` for every tail; for a tail of at least 1 that is `(tail - 1) mod N` and in range; for a smaller tail the head is not positive |
| PartitionRing.Rotate | ip-camera-producer/src/index.js:55-63 | with room left the cursor is untouched; otherwise `size` becomes 0 and the head moves to JavaScript's `(head + 1) % N`, which is `(head + 1) mod N` whenever `head >= -1`; the tail moves only when the new head equals it, and then to `(tail + 1) % N` (`(tail + 1) mod N` for a non-negative tail); in-range pointers stay in range |
| PartitionRing.FreshStart | ip-camera-producer/src/index.js:111 | the fresh manifest `{tail: 1}` starts the ring at head 0, tail 1, size 0, which satisfies the invariant when there are at least two partitions |
| PartitionRing.InitEstablishesInvariant | ip-camera-producer/src/index.js:47-49 | every manifest tail in `1 .. N-1` starts the ring inside the invariant |
| PartitionRing.ZeroTailHeadOutOfRange | ip-camera-producer/src/index.js:47 | with at least two partitions, a manifest tail of 0 yields head `-1`, outside the ring |
| PartitionRing.SinglePartitionStarts | ip-camera-producer/src/index.js:47-61 | with one partition, a manifest tail of 0 starts at (0, 0, 0) inside the invariant (`-0` is 0), while the fresh tail 1 starts outside it and no rotation ever moves it |
| PartitionRing.ZeroTailRecoversAtFirstRotation | ip-camera-producer/src/index.js:55-61 | from that start the first rotation gives head 0, tail 1, size 0, inside the invariant |
| PartitionRing.RotationAlwaysAdvancesTail | ip-camera-producer/src/index.js:57-61 | under the invariant the rotated head is always the old tail, so every rotation also advances the tail |
| PartitionRing.TailBeyondRingIsFrozen | ip-camera-producer/src/index.js:58-61 | a tail at or beyond `N` can never meet a rotated head, whatever the head, and never moves |
| ObjectKeys.PartitionPrefix | ip-camera-producer/src/index.js:64 | after the fixed lead `prefix + delim + "PARTITION-"`, a partition's prefix is the head's decimal text followed by the delimiter |
| ObjectKeys.ObjectKey | ip-camera-producer/src/index.js:64 | a key is its partition's prefix followed by exactly the timestamp |
| ObjectKeys.PartitionOfObjectKey | ip-camera-producer/src/index.js:64 | when the delimiter starts with a non-digit, parsing any key written for head `h >= 0` returns `h` |
| ObjectKeys.NegativeHeadKeyNamesNoPartition | ip-camera-producer/src/index.js:64 | a key written while the head is negative (`PARTITION--1`) names no partition |
| ObjectKeys.DistinctHeadsDistinctKeys | ip-camera-producer/src/index.js:64 | when the delimiter starts with a non-digit, keys and partition prefixes of distinct non-negative heads never coincide, whatever the timestamps |
| ObjectKeys.DistinctHeadsDistinctPrefixes | ip-camera-producer/src/index.js:64 | for any delimiter, even an empty or a digit one, distinct heads (negative ones included) have distinct partition prefixes |
| ObjectKeys.DigitDelimiterPrefixesNest | ip-camera-producer/src/index.js:64 | with the digit delimiter `1`, partition 1's prefix is a proper string prefix of partition 11's, so every key of partition 11 also lies under partition 1's prefix |
| CapturePipeline.Attempts | ip-camera-producer/src/index.js:68-72 | the calls of one capture are a prefix of fetch, store at `key.jpeg`, publish of the same bucket and key; the store runs iff the fetch succeeded and the publish runs iff the store succeeded |
| CapturePipeline.Step | ip-camera-producer/src/index.js:55-73 | head and tail are those of the rotation step; `size` gains one on a fully successful capture; any failure leaves the rotated cursor unchanged |
| CapturePipeline.Tick | ip-camera-producer/src/index.js:54-77 | head and tail are the rotation's; `size` is the rotated size plus one exactly on full success; the first call is the camera fetch, the store runs iff the fetch succeeded and the publish iff the store succeeded, both with the configured bucket and the rotated head's key plus `.jpeg` |
| CapturePipeline.TickAsWritten | ip-camera-producer/src/index.js:55-58 | the tick as written throws exactly on a rotation tick; otherwise it is the corrected tick |
| CapturePipeline.SizeCountsOnlyCompleteCaptures | ip-camera-producer/src/index.js:65-76 | `size` grows by exactly one iff fetch, store and publish all succeed; a failure leaves head, tail and size where the rotation put them |
| CapturePipeline.StoreBeforePublish | ip-camera-producer/src/index.js:68-72 | the fetch comes first; every publish directly follows a store of the same bucket and key; store and publish both use the configured bucket and `key.jpeg` for the rotated head |
| CapturePipeline.SizeWithinCapacity | ip-camera-producer/src/index.js:55-73 | with a capacity of at least 1, `0 <= size <= capacity` holds after every tick if it held before |
| CapturePipeline.TickPreservesInvariant | ip-camera-producer/src/index.js:55-73 | with a capacity of at least 1, every tick preserves the ring invariant, whatever the I/O outcome |
| CapturePipeline.RotationThrowsAsWritten | ip-camera-producer/src/index.js:55-58 | as written, a rotation tick throws after moving the head and clearing `size`, and leaves the tail where it was |
| CapturePipeline.RotationDefectWitness | ip-camera-producer/src/index.js:58 | concrete case: 3 partitions of 1 image at cursor (0, 1, 1); as written the tick throws, leaving (1, 1, 0); corrected it gives (1, 2, 1) and a full capture |
| Startup.FirstError | ip-camera-producer/src/index.js:103-108 | the try block fails with headBucket's error if there is one; once headBucket succeeds, the outcome is getObject's own reply |
| Startup.EnsureBucket | ip-camera-producer/src/index.js:102-124 | the stored manifest comes back iff both reads succeed; a bare `{tail: 1}` comes back iff the first error is `NotFound` and creating the bucket and manifest succeeds; any other error code exits with status 1 |
| Startup.StartAsWritten | ip-camera-producer/src/index.js:44-49 | `main` as written gets a cursor only from a stored manifest, never from a freshly created one, and that cursor is the startup initialisation from the stored tail |
| Startup.Start | ip-camera-producer/src/index.js:44-49 | corrected, `main` gets a cursor from either shape, the startup initialisation from that manifest's tail; every failure is the one the code as written produces, and the fresh manifest no longer fails |
| Startup.FreshBucketFailsAsWritten | ip-camera-producer/src/index.js:44-45 | on a missing bucket the code as written fails at startup because `Body` is missing |
| Startup.FreshBucketStartsAtZero | ip-camera-producer/src/index.js:110-118 | corrected, a `NotFound` reply from headBucket or getObject, followed by a successful create and put, starts the ring at (0, 1, 0), inside the invariant when there are at least two partitions |
| Startup.StoredManifestStart | ip-camera-producer/src/index.js:47-49 | with at least two partitions, a stored manifest always yields a cursor, and that cursor satisfies the invariant iff the stored tail is in `1 .. N-1` (one partition is covered by `PartitionRing.SinglePartitionStarts`) |
| Schedule.Run | ip-camera-producer/src/index.js:51 | serial ticks; while no rotation is due, a run of failed captures leaves the cursor exactly as it was |
| Schedule.RunAsWritten | ip-camera-producer/src/index.js:51-61 | serial ticks of the code as written, assuming the interval keeps firing after the throw: the tail never moves during any run |
| Schedule.RunPreservesInvariant | ip-camera-producer/src/index.js:51 | with a capacity of at least 1, across any sequence of serial ticks, with any outcomes, the invariant holds throughout |
| Schedule.TailAdvancesWhenCorrected | ip-camera-producer/src/index.js:58-61 | two successful ticks with one image per partition: corrected, the tail advances to 2; as written it stays at 1 |
| Schedule.SuccessfulRunPosition | ip-camera-producer/src/index.js:54-77 | with a capacity `C >= 1`, after `k >= 1` successful ticks from an empty head `h` in `0 .. N-1` with tail `(h + 1) mod N`, the head is `(h + (k-1) div C) mod N`, `size` is `(k-1) mod C + 1` and the invariant holds |
| Schedule.FullLap | ip-camera-producer/src/index.js:54-77 | with a capacity `C >= 1`, starting from an empty head `h` in `0 .. N-1` with tail `(h + 1) mod N`, `C` successful ticks fill partition `h` without rotating; after `N*C + 1` ticks the head is back at `h` with one image |

## Findings

| source | as written | input that shows it | evidently intended | confidence | as-written member | corrected member |
|---|---|---|---|---|---|---|
| ip-camera-producer/src/index.js:58 | the rotated head is compared with `partition.tail`; `partition` is not declared, so the comparison throws a ReferenceError after `size` and `head` have changed | any tick with `size + 1 > capacity`, e.g. 3 partitions of 1 image at cursor (0, 1, 1) | compare with `partitionInfo.tail` and advance the tail when they meet | high; not executed | CapturePipeline.TickAsWritten (witness: CapturePipeline.RotationDefectWitness, Schedule.RunAsWritten) | CapturePipeline.Tick (proved: CapturePipeline.TickPreservesInvariant, Schedule.RunPreservesInvariant) |
| ip-camera-producer/src/index.js:44-45 | on a `NotFound` error, `ensureBucket` returns the bare manifest `{tail: 1}` (line 118); `main` destructures `Body` from it and parses `undefined`, which throws | a bucket that does not exist yet: headBucket fails with `NotFound` | take the tail from the fresh manifest itself | high; not executed | Startup.StartAsWritten (witness: Startup.FreshBucketFailsAsWritten) | Startup.Start (proved: Startup.FreshBucketStartsAtZero) |

A third behaviour is modelled as written and not corrected. With at least two
partitions, a stored manifest with tail 0 starts the head at `-1` (`PartitionRing.ZeroTailHeadOutOfRange`), and
the first tick then writes under `PARTITION--1`. The ring comes back into range
at the first rotation (`PartitionRing.ZeroTailRecoversAtFirstRotation`). The code
itself never writes such a manifest.

## Left out

- Object-store calls (`headBucket`, `getObject`, `createBucket`, `putObject`),
  the HTTP fetch and the broker's connect and publish are foreign I/O. They
  appear only as their outcome (`Outcome`, `S3Reply`), and a tick's effects
  record the attempted calls.
- The body of the message (line 85), the exchange descriptor and the
  publication timestamp (lines 80-89) are left out. A `Publish` effect carries
  only the bucket and key.
- `setInterval` scheduling and overlapping asynchronous ticks are concurrency.
  Ticks are strictly serial.
- What Node does with the rejected promise after line 58 throws depends on the
  Node version. `Schedule.RunAsWritten` assumes the interval keeps firing, as
  older versions do. Newer versions end the process at the first rotation.
- Environment parsing and string-to-number coercion (lines 7-22) are left out,
  including the comparison of `size + 1` with the string `LIST_PARTITION_SIZE`.
  Configuration values are integers.
- JavaScript numbers are modelled as unbounded integers. Every value the cursor
  holds is far below 2^53, where doubles are exact. `-0` is modelled as `0`,
  which prints the same.
- JsNumber.Rem: only positive divisors are modelled, so every ring operation
  requires `partitions >= 1`. With 0 partitions JavaScript computes `NaN`.
  Negative counts are not a meaningful configuration.
- CapturePipeline.TickPreservesInvariant: requires a capacity of at least 1.
  With capacity 0 every tick rotates and a completed capture leaves `size` at
  1, so the invariant's bound `size <= capacity` cannot survive a successful
  tick.
- Schedule.RunPreservesInvariant: requires a capacity of at least 1, for the
  same reason.
- `JSON.parse`/`JSON.stringify` of the manifest are left out. The stored
  manifest enters as its parsed `tail`. `moment` timestamps enter as strings.
- Broker connection setup (line 46) runs between reading the manifest and
  initialising the cursor. Its failure is not modelled.
- The manifest key (line 43), `console.log` and the process exit codes are left
  out beyond `Exited(1)`.
- Deleting partitions and rewriting the manifest (comments at lines 48 and
  59-60) are not implemented in the code and are not modelled.

=== FILE: capture.dfy ===
/** One tick of the producer: the rotation/eviction step, then the capture
    pipeline fetch -> store -> publish, then the size increment that only a
    fully successful capture earns. The three I/O calls are abstracted into an
    `Outcome` saying which of them, if any, failed; the effects of a tick are
    the calls it attempted, in order. */
module CapturePipeline {
  import opened PartitionRing
  import opened ObjectKeys

  /** How the I/O of one capture went. */
  datatype Outcome = Ok | FailFetch | FailStore | FailPublish

  /** An attempted call to a collaborator. */
  datatype Effect =
    | Fetch(url: string)
    | Store(bucket: string, key: string)
    | Publish(bucket: string, key: string)

  /** The value of one tick: the cursor afterwards and the calls attempted. */
  datatype TickResult = TickResult(state: RingState, effects: seq<Effect>)

  /** A tick of the code as written: either it ran to completion, or line 58
      threw a ReferenceError after lines 56-57 had already changed the cursor. */
  datatype AsWrittenTick =
    | Completed(result: TickResult)
    | ReferenceError(state: RingState)

  const ImageSuffix: string := ".jpeg"

  predicate FetchSucceeded(io: Outcome)
  {
    !io.FailFetch?
  }

  predicate StoreSucceeded(io: Outcome)
  {
    io.Ok? || io.FailPublish?
  }

  /** Reference trace of a capture that runs every step: fetch from the
      camera, store at `key.jpeg`, announce that same bucket and key. */
  function FullTrace(cfg: Config, key: string): seq<Effect>
  {
    [Fetch(cfg.cameraUrl), Store(cfg.bucket, key + ImageSuffix), Publish(cfg.bucket, key + ImageSuffix)]
  }

  /** The calls a capture attempts: a prefix of the full trace that stops at
      the first failing step. */
  function Attempts(cfg: Config, key: string, io: Outcome): (t: seq<Effect>)
    ensures 1 <= |t| <= 3 && t == FullTrace(cfg, key)[..|t|]
    ensures |t| >= 2 <==> FetchSucceeded(io)
    ensures |t| == 3 <==> StoreSucceeded(io)
  {
    var full := FullTrace(cfg, key);
    match io
    case FailFetch => full[..1]
    case FailStore => full[..2]
    case FailPublish => full
    case Ok => full
  }

  /** The cursor after one tick. */
  function Step(cfg: Config, s: RingState, io: Outcome): (r: RingState)
    requires cfg.partitions >= 1
    ensures r.head == Rotate(cfg, s).head && r.tail == Rotate(cfg, s).tail
    ensures io.Ok? ==> r.size == Rotate(cfg, s).size + 1
    ensures !io.Ok? ==> r == Rotate(cfg, s)
  {
    var rotated := Rotate(cfg, s);
    if io.Ok? then rotated.(size := rotated.size + 1) else rotated
  }

  /** One tick with the defect of line 58 corrected: the rotated head is
      compared with the cursor's own tail. */
  function Tick(cfg: Config, s: RingState, io: Outcome, timestamp: string): (r: TickResult)
    requires cfg.partitions >= 1
    ensures r.state.head == Rotate(cfg, s).head && r.state.tail == Rotate(cfg, s).tail
    ensures r.state.size == Rotate(cfg, s).size + (if io.Ok? then 1 else 0)
    ensures 1 <= |r.effects| <= 3 && r.effects[0] == Fetch(cfg.cameraUrl)
    ensures |r.effects| >= 2 <==> FetchSucceeded(io)
    ensures |r.effects| == 3 <==> StoreSucceeded(io)
    ensures |r.effects| >= 2 ==> r.effects[1] == Store(cfg.bucket, ObjectKey(cfg, Rotate(cfg, s).head, timestamp) + ImageSuffix)
    ensures |r.effects| == 3 ==> r.effects[2] == Publish(cfg.bucket, ObjectKey(cfg, Rotate(cfg, s).head, timestamp) + ImageSuffix)
  {
    var rotated := Rotate(cfg, s);
    TickResult(Step(cfg, s, io), Attempts(cfg, ObjectKey(cfg, rotated.head, timestamp), io))
  }

  /** One tick as the source is written: on a rotation it resets `size` and
      advances `head`, then evaluates `partition.tail`, an undeclared name, and
      throws before anything else happens. */
  function TickAsWritten(cfg: Config, s: RingState, io: Outcome, timestamp: string): (r: AsWrittenTick)
    requires cfg.partitions >= 1
    ensures r.ReferenceError? <==> RotationDue(cfg, s)
    ensures r.Completed? ==> r.result == Tick(cfg, s, io, timestamp)
  {
    if RotationDue(cfg, s) then
      ReferenceError(RingState(JsNumber.Rem(s.head + 1, cfg.partitions), s.tail, 0))
    else
      Completed(Tick(cfg, s, io, timestamp))
  }

  /** The size counter grows by exactly one on a tick whose fetch, store and
      publish all succeeded, and a failing tick leaves the cursor where the
      rotation step put it. */
  lemma SizeCountsOnlyCompleteCaptures(cfg: Config, s: RingState, io: Outcome, timestamp: string)
    requires cfg.partitions >= 1
    ensures var r := Tick(cfg, s, io, timestamp);
            && (r.state.size == Rotate(cfg, s).size + 1 <==> io.Ok?)
            && (!io.Ok? ==> r.state == Rotate(cfg, s))
  {
  }

  /** Ordering of the effects: the image is stored before it is announced,
      the announcement names exactly the bucket and key that were stored, and
      both are written under the head the rotation step chose. */
  lemma StoreBeforePublish(cfg: Config, s: RingState, io: Outcome, timestamp: string)
    requires cfg.partitions >= 1
    ensures var r := Tick(cfg, s, io, timestamp);
            var key := ObjectKey(cfg, Rotate(cfg, s).head, timestamp) + ImageSuffix;
            && r.effects[0] == Fetch(cfg.cameraUrl)
            && (forall i :: 0 <= i < |r.effects| && r.effects[i].Publish? ==>
                  i >= 1 && r.effects[i - 1] == Store(r.effects[i].bucket, r.effects[i].key))
            && (forall i :: 0 <= i < |r.effects| && r.effects[i].Store? ==> r.effects[i] == Store(cfg.bucket, key))
            && (forall i :: 0 <= i < |r.effects| && r.effects[i].Publish? ==> r.effects[i] == Publish(cfg.bucket, key))
  {
  }

  /** With at least one slot per partition, `size` never exceeds the
      capacity after a tick, whatever the I/O outcome. */
  lemma SizeWithinCapacity(cfg: Config, s: RingState, io: Outcome, timestamp: string)
    requires cfg.partitions >= 1 && cfg.capacity >= 1
    requires 0 <= s.size <= cfg.capacity
    ensures 0 <= Tick(cfg, s, io, timestamp).state.size <= cfg.capacity
  {
  }

  /** Every tick preserves the ring invariant. */
  lemma TickPreservesInvariant(cfg: Config, s: RingState, io: Outcome, timestamp: string)
    requires cfg.capacity >= 1 && Invariant(cfg, s)
    ensures Invariant(cfg, Tick(cfg, s, io, timestamp).state)
  {
  }

  /** As written, a rotation tick never captures anything and never moves the
      tail: the throw happens after `head` and `size` changed but before the
      tail test completes and before the key is built. */
  lemma RotationThrowsAsWritten(cfg: Config, s: RingState, io: Outcome, timestamp: string)
    requires cfg.partitions >= 1 && RotationDue(cfg, s)
    ensures TickAsWritten(cfg, s, io, timestamp).ReferenceError?
    ensures TickAsWritten(cfg, s, io, timestamp).state.tail == s.tail
    ensures TickAsWritten(cfg, s, io, timestamp).state.head == Rotate(cfg, s).head
    ensures TickAsWritten(cfg, s, io, timestamp).state.size == 0
  {
  }

  /** A concrete witness: three partitions of one image, the head partition
      full. As written the tick throws and the tail stays at 1 although the new
      head is 1; corrected, the tail advances to 2 and the capture runs. */
  lemma RotationDefectWitness()
    ensures var cfg := Config("b", "u", "p", "/", 3, 1);
            var s := RingState(0, 1, 1);
            && TickAsWritten(cfg, s, Ok, "t") == ReferenceError(RingState(1, 1, 0))
            && Tick(cfg, s, Ok, "t").state == RingState(1, 2, 1)
            && |Tick(cfg, s, Ok, "t").effects| == 3
  {
  }
}

=== FILE: jsnumber.dfy ===
/** The two pieces of JavaScript number semantics the partition cursor relies on:
    the `%` operator (a truncated remainder, unlike Dafny's Euclidean `%`) and the
    decimal rendering a template literal gives an integral number.

    Numbers are modelled as unbounded integers; every value the cursor holds is a
    small integer, which a JavaScript double represents exactly. */
module JsNumber {

  /** JavaScript `a % n` for an integral dividend and a positive integral
      divisor: the remainder of truncated division, so it carries the sign of
      the dividend. */
  function Rem(a: int, n: int): (r: int)
    requires n >= 1
    ensures -n < r < n
    ensures a >= 0 ==> r >= 0
    ensures a <= 0 ==> r <= 0
    ensures (a - r) % n == 0
  {
    if a >= 0 then
      DivModUnique(a - a % n, n, a / n, 0);
      a % n
    else
      DivModUnique(-a - (-a) % n, n, (-a) / n, 0);
      DivModUnique(a + (-a) % n, n, -((-a) / n), 0);
      -((-a) % n)
  }

  /** On a non-negative dividend the truncated and the Euclidean remainder agree. */
  lemma RemOfNatIsMod(a: int, n: int)
    requires a >= 0 && n >= 1
    ensures Rem(a, n) == a % n
  {
  }

  /** The sign-of-dividend behaviour that makes `(0 - 1) % n` negative. */
  lemma RemOfMinusOne(n: int)
    requires n >= 2
    ensures Rem(-1, n) == -1
  {
  }

  /** Euclidean division is unique: any quotient/remainder pair with the
      remainder in range is the one Dafny's `/` and `%` compute. */
  lemma DivModUnique(x: int, c: int, q: int, r: int)
    requires c >= 1 && 0 <= r < c && x == q * c + r
    ensures x / c == q && x % c == r
  {
    var q', r' := x / c, x % c;
    assert (q - q') * c == r' - r by {
      assert x == q' * c + r';
      assert q * c - q' * c == (q - q') * c;
    }
    if q > q' {
      MulAtLeast(q - q', c);
    } else if q < q' {
      MulAtLeast(q' - q, c);
    }
  }

  lemma MulAtLeast(a: int, c: int)
    requires a >= 1 && c >= 1
    ensures a * c >= c
  {
    assert a * c == (a - 1) * c + c;
    assert (a - 1) * c >= 0;
  }

  /** Any value with the three properties of `Rem`'s contract is `Rem` itself,
      so that contract pins the truncated remainder down completely. */
  lemma RemUnique(a: int, n: int, r: int)
    requires n >= 1
    requires -n < r < n
    requires a >= 0 ==> r >= 0
    requires a <= 0 ==> r <= 0
    requires (a - r) % n == 0
    ensures r == Rem(a, n)
  {
    var k := (a - r) / n;
    DivModUnique(a - r, n, k, 0);
    assert a - r == k * n;
    if a >= 0 {
      DivModUnique(a, n, k, r);
    } else {
      assert -a == (-k) * n + (-r);
      DivModUnique(-a, n, -k, -r);
    }
  }

  predicate IsDigit(c: char)
  {
    '0' <= c <= '9'
  }

  predicate AllDigits(s: string)
  {
    forall i :: 0 <= i < |s| ==> IsDigit(s[i])
  }

  function DigitChar(d: int): (c: char)
    requires 0 <= d < 10
    ensures IsDigit(c) && c as int - '0' as int == d
  {
    "0123456789"[d]
  }

  /** Base-ten digits of a natural number, most significant first, with no
      leading zero: what JavaScript prints for an integral number >= 0. */
  function Decimal(n: nat): (s: string)
    ensures |s| >= 1 && AllDigits(s)
    ensures |s| > 1 ==> s[0] != '0'
    decreases n
  {
    if n < 10 then [DigitChar(n)] else Decimal(n / 10) + [DigitChar(n % 10)]
  }

  /** Reads a string of digits as a base-ten number; the inverse of `Decimal`. */
  function DecimalValue(s: string): nat
    requires AllDigits(s)
  {
    if |s| == 0 then 0
    else DecimalValue(s[..|s| - 1]) * 10 + (s[|s| - 1] as int - '0' as int)
  }

  lemma {:induction false} DecimalRoundTrip(n: nat)
    ensures DecimalValue(Decimal(n)) == n
    decreases n
  {
    if n >= 10 {
      var s := Decimal(n);
      assert s[..|s| - 1] == Decimal(n / 10);
      DecimalRoundTrip(n / 10);
    }
  }

  /** The string a template literal produces for an integral number. */
  function ToString(i: int): (s: string)
    ensures |s| >= 1
    ensures s[0] == '-' <==> i < 0
    ensures i >= 0 ==> AllDigits(s) && DecimalValue(s) == i
    ensures i >= 0 && |s| > 1 ==> s[0] != '0'
    ensures i < 0 ==> |s| >= 2 && s[1] != '0'
    ensures i < 0 ==> AllDigits(s[1..]) && DecimalValue(s[1..]) == -i
  {
    if i < 0 then
      DecimalRoundTrip(-i);
      assert ("-" + Decimal(-i))[1..] == Decimal(-i);
      "-" + Decimal(-i)
    else
      DecimalRoundTrip(i);
      Decimal(i)
  }

  /** Distinct integers print differently. */
  lemma ToStringInjective(i: int, j: int)
    requires ToString(i) == ToString(j)
    ensures i == j
  {
  }

  /** The longest prefix of `s` made only of digits. */
  function LeadingDigits(s: string): (d: string)
    ensures d <= s && AllDigits(d)
  {
    if |s| > 0 && IsDigit(s[0]) then [s[0]] + LeadingDigits(s[1..]) else []
  }

  /** A run of digits followed by nothing, or by a non-digit, is read back whole. */
  lemma {:induction false} LeadingDigitsOfDigitRun(d: string, rest: string)
    requires AllDigits(d)
    requires |rest| == 0 || !IsDigit(rest[0])
    ensures LeadingDigits(d + rest) == d
    decreases |d|
  {
    if |d| == 0 {
      assert d + rest == rest;
    } else {
      assert (d + rest)[1..] == d[1..] + rest;
      LeadingDigitsOfDigitRun(d[1..], rest);
      assert d == [d[0]] + d[1..];
    }
  }
}

=== FILE: objectkey.dfy ===
/** Naming of captured images: every object key carries the index of the
    partition it was written into, between two configured delimiters. */
module ObjectKeys {
  import opened JsNumber
  import opened PartitionRing

  datatype Option<T> = None | Some(value: T)

  const PartitionTag: string := "PARTITION-"

  /** The fixed lead of every key, before the partition index. */
  function KeyLead(cfg: Config): string
  {
    cfg.prefix + cfg.delim + PartitionTag
  }

  /** The key of every object in partition `head`, up to the timestamp. */
  function PartitionPrefix(cfg: Config, head: int): (p: string)
    ensures KeyLead(cfg) <= p
    ensures p[|KeyLead(cfg)|..] == ToString(head) + cfg.delim
  {
    KeyLead(cfg) + ToString(head) + cfg.delim
  }

  /** The base key of one capture: the partition prefix of the current head
      followed by the capture's timestamp (milliseconds, already rendered). */
  function ObjectKey(cfg: Config, head: int, timestamp: string): (k: string)
    ensures PartitionPrefix(cfg, head) <= k
    ensures k[|PartitionPrefix(cfg, head)|..] == timestamp
  {
    PartitionPrefix(cfg, head) + timestamp
  }

  /** A delimiter that cannot be mistaken for part of the partition index. */
  predicate DelimiterEndsIndex(cfg: Config)
  {
    |cfg.delim| > 0 && !IsDigit(cfg.delim[0])
  }

  /** Reads the partition index back out of a key: the run of digits after
      the fixed lead, which must be followed by the delimiter. */
  function PartitionOf(cfg: Config, key: string): (r: Option<nat>)
    ensures r.Some? ==> KeyLead(cfg) <= key
  {
    var lead := KeyLead(cfg);
    if lead <= key then
      var rest := key[|lead|..];
      var digits := LeadingDigits(rest);
      if |digits| > 0 && cfg.delim <= rest[|digits|..] then Some(DecimalValue(digits))
      else None
    else None
  }

  /** Every key written for an in-range (non-negative) head names that head. */
  lemma PartitionOfObjectKey(cfg: Config, head: int, timestamp: string)
    requires DelimiterEndsIndex(cfg) && head >= 0
    ensures PartitionOf(cfg, ObjectKey(cfg, head, timestamp)) == Some(head)
  {
    var key := ObjectKey(cfg, head, timestamp);
    var lead := KeyLead(cfg);
    var rest := key[|lead|..];
    assert rest == Decimal(head) + (cfg.delim + timestamp);
    LeadingDigitsOfDigitRun(Decimal(head), cfg.delim + timestamp);
    assert rest[|Decimal(head)|..] == cfg.delim + timestamp;
    DecimalRoundTrip(head);
  }

  /** A key written while the head was negative (the zero-tail start) does not
      name any partition. */
  lemma NegativeHeadKeyNamesNoPartition(cfg: Config, head: int, timestamp: string)
    requires head < 0
    ensures PartitionOf(cfg, ObjectKey(cfg, head, timestamp)) == None
  {
    var key := ObjectKey(cfg, head, timestamp);
    var lead := KeyLead(cfg);
    assert key[|lead|..][0] == '-';
  }

  /** Keys from distinct in-range heads never coincide, whatever the
      timestamps; in particular distinct heads have distinct partition
      prefixes. */
  lemma DistinctHeadsDistinctKeys(cfg: Config, h1: int, h2: int, t1: string, t2: string)
    requires DelimiterEndsIndex(cfg) && h1 >= 0 && h2 >= 0 && h1 != h2
    ensures ObjectKey(cfg, h1, t1) != ObjectKey(cfg, h2, t2)
    ensures PartitionPrefix(cfg, h1) != PartitionPrefix(cfg, h2)
  {
    PartitionOfObjectKey(cfg, h1, t1);
    PartitionOfObjectKey(cfg, h2, t2);
    PartitionOfObjectKey(cfg, h1, "");
    PartitionOfObjectKey(cfg, h2, "");
    assert ObjectKey(cfg, h1, "") == PartitionPrefix(cfg, h1);
    assert ObjectKey(cfg, h2, "") == PartitionPrefix(cfg, h2);
  }

  /** Distinct heads, negative ones included, always have distinct partition
      prefixes, whatever the delimiter (even an empty or a digit one): the
      prefixes differ exactly in the head's text. */
  lemma {:induction false} DistinctHeadsDistinctPrefixes(cfg: Config, h1: int, h2: int)
    requires h1 != h2
    ensures PartitionPrefix(cfg, h1) != PartitionPrefix(cfg, h2)
  {
    var lead, d := KeyLead(cfg), cfg.delim;
    var p1, p2 := PartitionPrefix(cfg, h1), PartitionPrefix(cfg, h2);
    if p1 == p2 {
      assert p1[|lead|..|p1| - |d|] == ToString(h1);
      assert p2[|lead|..|p2| - |d|] == ToString(h2);
      ToStringInjective(h1, h2);
    }
  }

  /** Without the delimiter condition the partition prefixes nest: with
      delimiter "1", the prefix of partition 1 (`...PARTITION-11`) is a string
      prefix of that of partition 11 (`...PARTITION-111`), so every key of
      partition 11 also lies under partition 1's prefix. */
  lemma DigitDelimiterPrefixesNest(timestamp: string)
    ensures var cfg := Config("b", "u", "p", "1", 20, 5);
            && PartitionPrefix(cfg, 1) < PartitionPrefix(cfg, 11)
            && PartitionPrefix(cfg, 1) <= ObjectKey(cfg, 11, timestamp)
  {
  }
}

=== FILE: ring.dfy ===
/** The partition-ring cursor `{head, tail, size}` of the camera producer and
    the two operations that move it without any I/O: startup initialisation
    from the manifest's `tail`, and the rotation/eviction rule evaluated at the
    start of every tick. All arithmetic is JavaScript's (`JsNumber.Rem`). */
module PartitionRing {
  import opened JsNumber

  /** The configuration the producer reads from its environment.
      `partitions` is LIST_PARTITIONS, `capacity` is LIST_PARTITION_SIZE. */
  datatype Config = Config(
    bucket: string,
    cameraUrl: string,
    prefix: string,
    delim: string,
    partitions: int,
    capacity: int)

  /** The process-wide cursor: `head` is the partition being written, `tail`
      the partition the ring would evict next, `size` the number of captures
      completed into `head` since it was last entered. */
  datatype RingState = RingState(head: int, tail: int, size: int)

  /** The manifest a fresh bucket starts with. */
  const FreshManifestTail: int := 1

  /** Reference successor on the ring: `(i + 1) mod N`, Euclidean. */
  function NextIndex(cfg: Config, i: int): int
    requires cfg.partitions >= 1
  {
    (i + 1) % cfg.partitions
  }

  /** The capacity test: one more capture would overfill the head partition. */
  predicate RotationDue(cfg: Config, s: RingState)
  {
    s.size + 1 > cfg.capacity
  }

  predicate InRange(cfg: Config, i: int)
  {
    0 <= i < cfg.partitions
  }

  /** The invariant the cursor keeps when started from a well-formed manifest:
      both pointers in range, the tail immediately after the head, and the
      head partition not overfull. */
  ghost predicate Invariant(cfg: Config, s: RingState)
  {
    && cfg.partitions >= 1
    && InRange(cfg, s.head)
    && InRange(cfg, s.tail)
    && s.tail == NextIndex(cfg, s.head)
    && 0 <= s.size <= cfg.capacity
  }

  /** Startup: the tail comes from the manifest and the head is the partition
      before it, computed with JavaScript's `%`; nothing has been written. */
  function Init(cfg: Config, manifestTail: int): (s: RingState)
    requires cfg.partitions >= 1
    ensures s.tail == manifestTail && s.size == 0
    ensures s.head == Rem(manifestTail - 1, cfg.partitions)
    ensures manifestTail >= 1 ==> s.head == (manifestTail - 1) % cfg.partitions
    ensures manifestTail >= 1 ==> InRange(cfg, s.head)
    ensures manifestTail < 1 ==> s.head <= 0
  {
    RingState(Rem(manifestTail - 1, cfg.partitions), manifestTail, 0)
  }

  /** The rotation/eviction step that opens every tick: when the head partition
      is full, start a fresh head partition; when the new head lands on the
      tail, the tail moves on. */
  function Rotate(cfg: Config, s: RingState): (r: RingState)
    requires cfg.partitions >= 1
    ensures !RotationDue(cfg, s) ==> r == s
    ensures RotationDue(cfg, s) ==> r.size == 0
    ensures RotationDue(cfg, s) ==> r.head == Rem(s.head + 1, cfg.partitions)
    ensures RotationDue(cfg, s) && s.head >= -1 ==> r.head == NextIndex(cfg, s.head)
    ensures r.tail != s.tail ==> RotationDue(cfg, s) && r.head == s.tail
    ensures RotationDue(cfg, s) && r.head == s.tail ==> r.tail == Rem(s.tail + 1, cfg.partitions)
    ensures RotationDue(cfg, s) && r.head == s.tail && s.tail >= 0 ==> r.tail == NextIndex(cfg, s.tail)
    ensures InRange(cfg, s.head) ==> InRange(cfg, r.head)
    ensures InRange(cfg, s.tail) ==> InRange(cfg, r.tail)
  {
    if RotationDue(cfg, s) then
      var head := Rem(s.head + 1, cfg.partitions);
      var tail := if head == s.tail then Rem(s.tail + 1, cfg.partitions) else s.tail;
      RingState(head, tail, 0)
    else
      s
  }

  /** A fresh manifest gives head 0 and tail 1; with at least two partitions
      that start satisfies the invariant. */
  lemma FreshStart(cfg: Config)
    requires cfg.partitions >= 2 && cfg.capacity >= 0
    ensures Init(cfg, FreshManifestTail) == RingState(0, 1, 0)
    ensures Invariant(cfg, Init(cfg, FreshManifestTail))
  {
  }

  /** Every manifest tail in `1 .. N-1` starts the ring in a state satisfying
      the invariant. */
  lemma InitEstablishesInvariant(cfg: Config, manifestTail: int)
    requires cfg.partitions >= 1 && cfg.capacity >= 0
    requires 1 <= manifestTail < cfg.partitions
    ensures Invariant(cfg, Init(cfg, manifestTail))
  {
    DivModUnique(manifestTail - 1, cfg.partitions, 0, manifestTail - 1);
    DivModUnique(manifestTail, cfg.partitions, 0, manifestTail);
  }

  /** A manifest tail of 0 makes the head -1: JavaScript's `%` keeps the sign
      of `0 - 1`, so the head is outside the ring. */
  lemma ZeroTailHeadOutOfRange(cfg: Config)
    requires cfg.partitions >= 2
    ensures Init(cfg, 0).head == -1
    ensures !InRange(cfg, Init(cfg, 0).head)
  {
  }

  /** With a single partition the picture flips: JavaScript's `(0 - 1) % 1`
      is `-0`, so a stored tail of 0 starts inside the invariant, while the
      fresh manifest's tail 1 lies outside the ring and never moves. */
  lemma SinglePartitionStarts(cfg: Config, s: RingState)
    requires cfg.partitions == 1 && cfg.capacity >= 0
    requires s.tail == FreshManifestTail
    ensures Init(cfg, 0) == RingState(0, 0, 0) && Invariant(cfg, Init(cfg, 0))
    ensures Init(cfg, FreshManifestTail) == RingState(0, 1, 0)
    ensures !Invariant(cfg, Init(cfg, FreshManifestTail))
    ensures Rotate(cfg, s).tail == FreshManifestTail
  {
  }

  /** From the out-of-range start of a zero tail, the first rotation brings
      the ring back into the invariant: the head wraps to 0, meets the tail,
      and the tail moves to 1. */
  lemma ZeroTailRecoversAtFirstRotation(cfg: Config, size: int)
    requires cfg.partitions >= 2 && cfg.capacity >= 0
    requires RotationDue(cfg, RingState(-1, 0, size))
    ensures Rotate(cfg, RingState(-1, 0, size)) == RingState(0, 1, 0)
    ensures Invariant(cfg, Rotate(cfg, RingState(-1, 0, size)))
  {
  }

  /** Under the invariant the rotated head is always the old tail, so every
      rotation also advances the tail: eviction is due on every rotation. */
  lemma RotationAlwaysAdvancesTail(cfg: Config, s: RingState)
    requires Invariant(cfg, s) && RotationDue(cfg, s)
    ensures Rotate(cfg, s).head == s.tail
    ensures Rotate(cfg, s).tail == NextIndex(cfg, s.tail)
  {
  }

  /** A tail at or beyond the partition count never meets a rotated head,
      which JavaScript's `%` keeps below the partition count, so it never
      moves again. */
  lemma TailBeyondRingIsFrozen(cfg: Config, s: RingState)
    requires cfg.partitions >= 1
    requires s.tail >= cfg.partitions
    ensures Rotate(cfg, s).tail == s.tail
  {
  }
}

=== FILE: schedule.dfy ===
/** The scheduler's view: strictly serial ticks, one per interval, each with
    its own I/O outcome. `Run` is the cursor after a whole sequence of ticks;
    timestamps do not influence the cursor, so they are not inputs here. */
module Schedule {
  import opened JsNumber
  import opened PartitionRing
  import opened CapturePipeline

  /** Every tick of the run had a failing capture. */
  predicate AllFailed(ios: seq<Outcome>)
    decreases |ios|
  {
    |ios| == 0 || (!ios[|ios| - 1].Ok? && AllFailed(ios[..|ios| - 1]))
  }

  /** The cursor after the ticks whose outcomes are `ios`, oldest first.
      Failed captures consume no capacity: while no rotation is due, a run of
      failures leaves the cursor exactly as it was. */
  function Run(cfg: Config, s: RingState, ios: seq<Outcome>): (r: RingState)
    requires cfg.partitions >= 1
    ensures !RotationDue(cfg, s) && AllFailed(ios) ==> r == s
    decreases |ios|
  {
    if |ios| == 0 then s
    else Step(cfg, Run(cfg, s, ios[..|ios| - 1]), ios[|ios| - 1])
  }

  /** The same run under the code as written, where a rotation tick throws
      after changing `head` and `size` and the interval keeps firing. The
      tail never moves: the only statement that advances it sits behind the
      throwing comparison. */
  function RunAsWritten(cfg: Config, s: RingState, ios: seq<Outcome>): (r: RingState)
    requires cfg.partitions >= 1
    ensures r.tail == s.tail
    decreases |ios|
  {
    if |ios| == 0 then s
    else
      var before := RunAsWritten(cfg, s, ios[..|ios| - 1]);
      match TickAsWritten(cfg, before, ios[|ios| - 1], "")
      case Completed(result) => result.state
      case ReferenceError(state) => state
  }

  /** `k` ticks in a row whose capture fully succeeds. */
  function Successes(k: nat): (ios: seq<Outcome>)
    ensures |ios| == k && forall i :: 0 <= i < k ==> ios[i] == Ok
  {
    seq(k, _ => Ok)
  }

  /** From any state inside the invariant, every run of ticks stays inside it. */
  lemma {:induction false} RunPreservesInvariant(cfg: Config, s: RingState, ios: seq<Outcome>)
    requires cfg.capacity >= 1 && Invariant(cfg, s)
    ensures Invariant(cfg, Run(cfg, s, ios))
    decreases |ios|
  {
    if |ios| > 0 {
      var before := Run(cfg, s, ios[..|ios| - 1]);
      RunPreservesInvariant(cfg, s, ios[..|ios| - 1]);
      assert Tick(cfg, before, ios[|ios| - 1], "").state == Step(cfg, before, ios[|ios| - 1]);
      TickPreservesInvariant(cfg, before, ios[|ios| - 1], "");
    }
  }

  /** Corrected, the tail does move: from a fresh ring with partitions of one
      image, the second successful tick rotates and advances it. */
  lemma TailAdvancesWhenCorrected()
    ensures var cfg := Config("b", "u", "p", "/", 3, 1);
            && Run(cfg, RingState(0, 1, 0), Successes(2)) == RingState(1, 2, 1)
            && RunAsWritten(cfg, RingState(0, 1, 0), Successes(2)) == RingState(1, 1, 0)
  {
    var cfg := Config("b", "u", "p", "/", 3, 1);
    assert Successes(2)[..1] == Successes(1);
    assert Successes(1)[..0] == [];
  }

  /** Successor of a Euclidean remainder. */
  lemma ModSucc(a: int, n: int)
    requires a >= 0 && n >= 1
    ensures (a % n + 1) % n == (a + 1) % n
  {
    var q, r := a / n, a % n;
    if r + 1 < n {
      DivModUnique(a + 1, n, q, r + 1);
      DivModUnique(r + 1, n, 0, r + 1);
    } else {
      DivModUnique(a + 1, n, q + 1, 0);
      DivModUnique(r + 1, n, 1, 0);
    }
  }

  /** How the count of completed ticks splits into full partitions and the
      fill of the current one, one tick later. */
  lemma DivModStep(k: int, c: int)
    requires k >= 1 && c >= 1
    ensures (k - 1) % c + 1 == c ==> k % c == 0 && k / c == (k - 1) / c + 1
    ensures (k - 1) % c + 1 < c ==> k % c == (k - 1) % c + 1 && k / c == (k - 1) / c
  {
    var q, r := (k - 1) / c, (k - 1) % c;
    if r + 1 == c {
      DivModUnique(k, c, q + 1, 0);
    } else {
      DivModUnique(k, c, q, r + 1);
    }
  }

  /** One more successful tick, from the position after `k - 1 >= 1` of
      them to the position after `k`. */
  lemma SuccessfulStep(cfg: Config, h: int, k: int, before: RingState)
    requires cfg.partitions >= 1 && cfg.capacity >= 1 && InRange(cfg, h) && k >= 2
    requires Invariant(cfg, before)
    requires before.head == (h + (k - 2) / cfg.capacity) % cfg.partitions
    requires before.size == (k - 2) % cfg.capacity + 1
    ensures var r := Step(cfg, before, Ok);
            && Invariant(cfg, r)
            && r.head == (h + (k - 1) / cfg.capacity) % cfg.partitions
            && r.size == (k - 1) % cfg.capacity + 1
  {
    var c, n := cfg.capacity, cfg.partitions;
    var q := (k - 2) / c;
    DivModStep(k - 1, c);
    if RotationDue(cfg, before) {
      RotationAlwaysAdvancesTail(cfg, before);
      ModSucc(h + q, n);
      assert Rotate(cfg, before).head == ((h + q) % n + 1) % n;
    }
    assert Tick(cfg, before, Ok, "").state == Step(cfg, before, Ok);
    TickPreservesInvariant(cfg, before, Ok, "");
  }

  /** After `k >= 1` successful ticks from an empty head partition `h`, the
      head has moved on once per `capacity` captures and the current
      partition holds the remainder (counting from 1). */
  lemma {:induction false} SuccessfulRunPosition(cfg: Config, h: int, k: nat)
    requires cfg.partitions >= 1 && cfg.capacity >= 1 && InRange(cfg, h)
    requires k >= 1
    ensures var r := Run(cfg, RingState(h, NextIndex(cfg, h), 0), Successes(k));
            && Invariant(cfg, r)
            && r.head == (h + (k - 1) / cfg.capacity) % cfg.partitions
            && r.size == (k - 1) % cfg.capacity + 1
    decreases k
  {
    var s0 := RingState(h, NextIndex(cfg, h), 0);
    assert Successes(k)[..k - 1] == Successes(k - 1);
    if k == 1 {
      assert Successes(0) == [];
      DivModUnique(0, cfg.capacity, 0, 0);
      DivModUnique(h, cfg.partitions, 0, h);
    } else {
      SuccessfulRunPosition(cfg, h, k - 1);
      SuccessfulStep(cfg, h, k, Run(cfg, s0, Successes(k - 1)));
    }
  }

  /** The ring fills partition `h` with exactly `capacity` captures without
      rotating; once all `partitions * capacity` slots of the ring are used it
      has gone all the way round, and the next capture is the first one in
      partition `h` again. */
  lemma FullLap(cfg: Config, h: int)
    requires cfg.partitions >= 1 && cfg.capacity >= 1 && InRange(cfg, h)
    ensures var r := Run(cfg, RingState(h, NextIndex(cfg, h), 0), Successes(cfg.capacity));
            r.head == h && r.size == cfg.capacity
    ensures var r := Run(cfg, RingState(h, NextIndex(cfg, h), 0), Successes(cfg.partitions * cfg.capacity + 1));
            r.head == h && r.size == 1
  {
    var c, n := cfg.capacity, cfg.partitions;
    SuccessfulRunPosition(cfg, h, c);
    DivModUnique(c - 1, c, 0, c - 1);
    DivModUnique(h, n, 0, h);
    SuccessfulRunPosition(cfg, h, n * c + 1);
    DivModUnique(n * c, c, n, 0);
    DivModUnique(h + n, n, 1, h);
  }
}

=== FILE: startup.dfy ===
/** Startup of the producer: `ensureBucket` finds or creates the manifest,
    `main` reads the manifest's tail out of what it returned and initialises
    the cursor. The object-store calls are inputs (their replies), and the
    stored manifest's body is given already parsed as its tail. */
module Startup {
  import opened PartitionRing

  /** The reply of one object-store call: success, or an error with its code. */
  datatype S3Reply = Done | Error(code: string)

  /** What `ensureBucket` hands back to `main`, or how it ended instead. */
  datatype Ensured =
    | StoredObject(storedTail: int)   // the getObject response; its Body is the stored manifest
    | BareManifest(tail: int)         // the freshly created manifest object itself, with no Body
    | Exited(status: int)             // process.exit in the catch block
    | Rejected(code: string)          // createBucket or putObject failed inside the catch block

  datatype Result<T, E> = Success(value: T) | Failure(error: E)

  /** Why startup did not produce a cursor. */
  datatype StartFailure =
    | BodyMissing             // JSON.parse of an absent Body throws
    | ProcessExit(status: int)
    | UnhandledRejection(code: string)

  const NotFoundCode: string := "NotFound"

  /** The first failing call of the try block: getObject only runs once
      headBucket has succeeded. */
  function FirstError(head: S3Reply, get: S3Reply): (e: S3Reply)
    ensures e.Done? <==> head.Done? && get.Done?
    ensures head.Error? ==> e == head
    ensures head.Done? ==> e == get
  {
    if head.Error? then head else get
  }

  /** `ensureBucket`: read the manifest; on a NotFound error create the bucket
      and write a fresh manifest `{tail: 1}`; on any other error exit. */
  function EnsureBucket(head: S3Reply, get: S3Reply, storedTail: int, create: S3Reply, put: S3Reply): (r: Ensured)
    ensures r.StoredObject? <==> head.Done? && get.Done?
    ensures r.StoredObject? ==> r.storedTail == storedTail
    ensures r.BareManifest? <==> FirstError(head, get) == Error(NotFoundCode) && create.Done? && put.Done?
    ensures r.BareManifest? ==> r.tail == FreshManifestTail
    ensures r.Exited? <==> FirstError(head, get).Error? && FirstError(head, get).code != NotFoundCode
    ensures r.Exited? ==> r.status == 1
    ensures r.Rejected? ==> FirstError(head, get) == Error(NotFoundCode) && (create.Error? || put.Error?)
  {
    match FirstError(head, get)
    case Done => StoredObject(storedTail)
    case Error(code) =>
      if code == NotFoundCode then
        if create.Error? then Rejected(create.code)
        else if put.Error? then Rejected(put.code)
        else BareManifest(FreshManifestTail)
      else Exited(1)
  }

  /** `main` as written: it destructures `Body` from whatever `ensureBucket`
      returned, so the bare fresh manifest leaves nothing to parse. */
  function StartAsWritten(cfg: Config, e: Ensured): (r: Result<RingState, StartFailure>)
    requires cfg.partitions >= 1
    ensures r.Success? <==> e.StoredObject?
    ensures e.BareManifest? ==> r == Failure(BodyMissing)
    ensures r.Success? ==> r.value == Init(cfg, e.storedTail)
  {
    match e
    case StoredObject(t) => Success(Init(cfg, t))
    case BareManifest(_) => Failure(BodyMissing)
    case Exited(status) => Failure(ProcessExit(status))
    case Rejected(code) => Failure(UnhandledRejection(code))
  }

  /** `main` with the manifest taken from either shape `ensureBucket` returns. */
  function Start(cfg: Config, e: Ensured): (r: Result<RingState, StartFailure>)
    requires cfg.partitions >= 1
    ensures r.Success? <==> e.StoredObject? || e.BareManifest?
    ensures e.StoredObject? ==> r == StartAsWritten(cfg, e)
    ensures e.BareManifest? ==> r == Success(Init(cfg, e.tail))
    ensures r.Failure? ==> r == StartAsWritten(cfg, e)
  {
    match e
    case BareManifest(t) => Success(Init(cfg, t))
    case _ => StartAsWritten(cfg, e)
  }

  /** On a bucket that does not exist yet, the code as written never gets a
      cursor: the manifest it has just created is read through a missing Body. */
  lemma FreshBucketFailsAsWritten(cfg: Config, storedTail: int)
    requires cfg.partitions >= 1
    ensures var e := EnsureBucket(Error(NotFoundCode), Done, storedTail, Done, Done);
            StartAsWritten(cfg, e) == Failure(BodyMissing)
  {
  }

  /** Corrected, a fresh bucket starts the ring at head 0, tail 1, which is
      inside the invariant whenever there are at least two partitions. */
  lemma FreshBucketStartsAtZero(cfg: Config, head: S3Reply, get: S3Reply, storedTail: int)
    requires cfg.partitions >= 2 && cfg.capacity >= 0
    requires FirstError(head, get) == Error(NotFoundCode)
    ensures var r := Start(cfg, EnsureBucket(head, get, storedTail, Done, Done));
            r == Success(RingState(0, 1, 0)) && Invariant(cfg, r.value)
  {
  }

  /** A stored manifest starts the ring at `tail - 1`, `tail`, under the
      invariant exactly when its tail lies in `1 .. N-1`. */
  lemma StoredManifestStart(cfg: Config, storedTail: int)
    requires cfg.partitions >= 2 && cfg.capacity >= 0
    ensures var r := Start(cfg, EnsureBucket(Done, Done, storedTail, Done, Done));
            r.Success? && (Invariant(cfg, r.value) <==> 1 <= storedTail < cfg.partitions)
  {
    if 1 <= storedTail < cfg.partitions {
      InitEstablishesInvariant(cfg, storedTail);
    } else if storedTail == 0 {
      ZeroTailHeadOutOfRange(cfg);
    }
  }
}
